=== FILE: README.md ===
# edd checklist editor: a Dafny model of its editing engine

`edd` is a terminal editor for a Markdown checklist file (`TODO.md`). Each
task is stored as one line, `- [ ] text` or `- [x] text`, and two spaces of
indentation make one nesting level. This project models the program's core
and proves properties about it:

- **Codec** (`codec.dfy`). A hand-written recogniser of one task line, shown
  to accept exactly the lines that the program's regular expression matches.
  Also the file reader's filtering loop, the writer, and the round trip
  between them.
- **Browse mode** (`browse.dfy`). One pure transition per key on the state
  `(tasks, selected, offsetY, changed)`. The terminal height `h` is a
  parameter, and the task rows on screen are `[offsetY, offsetY + h - 1)`.
  This module also has the visible-row filter of the renderer.
- **Line editor** (`editor.dfy`). The in-place description editor: a buffer
  with a cursor `p`, insertion, both deletions, Home and End, plain and
  word-skipping Left and Right, and the Enter and Esc rules for the dirty
  flag. The two cursor loops are also written as methods that mirror the
  source loops, and they are proved equal to the pure functions.
- **Dispatcher** (`dispatch.dfy`). The event loop as a state machine with the
  modes Browsing, Editing and Exited. A run over a sequence of keys yields
  `None` when a key reaches a state on which a debug build of the program
  would panic.
- `types.dfy` holds the shared records (`Task`, `State`, keys), the selection
  invariant `Valid`, and the list surgery that `Vec::remove` and
  `Vec::insert` perform.

Two behaviours of the program are modelled as they are:

- The program does not keep the selection on screen. `i` does not scroll,
  `d` of the last task on the top row leaves the selection above the window,
  and Down at the last task on a two-row terminal scrolls it away. The lemmas
  `Browse.InsertMayHideSelection`, `Browse.DeleteMayHideSelection` and
  `Browse.DownAtLastTaskHides` exhibit these cases. Visibility is proved only
  for Up, Down, Home and End.
- In the program, keys on an empty list are not no-ops. Space, Tab, BackTab,
  `e`, End and `j`/Down on an empty list index out of range or underflow, `d`
  underflows when it removes the only task, and End underflows when the list
  is exactly as long as the terminal is high and the window is at the top.
  These cases are excluded by `Dispatch.Processable`.

## Model

| member | source | states |
|---|---|---|
| Codec.ParseLine | src/parser.rs:6-22 | an accepted line yields a newline-free description that is a suffix of the line, after at least two spaces per level and the six marker characters; a line shorter than the marker is rejected; `ParseIffPattern`, `ParseShape` and `ParsedHasShape` characterise it fully |
| Codec.FileToTasks | src/parser.rs:30-35 | the reader keeps at most one task per line, and no task it keeps has a newline in its description; `FileToTasksCons` (a parsing line contributes its task in place) and `FileToTasksDropsRejected` (a rejected line is dropped) fix its value on every input, and `FileToTasksSound` and `FileToTasksAppend` follow |
| Codec.FileToTasksCons | src/parser.rs:30-35 | a line that parses contributes its task in front of the tasks read from the lines after it |
| Codec.TaskLine | src/parser.rs:48 | a task is written as two spaces per level, then `- [`, `x` for a completed task or a space otherwise, and `] `, and the description verbatim at the end; `TaskLineRoundTrip` is its inverse |
| Codec.TasksToStr | src/parser.rs:44-52 | the empty list is written as the empty text; otherwise the text starts with the first task's line and ends with a newline; `TasksToStrCons` fixes it on every list, and `SplitTasksToStr` and `TasksRoundTrip` describe it on lists whose descriptions have no newline |
| Codec.TaskLines | src/parser.rs:44-52 | the task lines of a list are one `TaskLine` per task, in list order |
| Codec.TasksToStrCons | src/parser.rs:44-52 | the text written for a list starting with a task is that task's line, a newline, then the text written for the rest |
| Codec.ParseIffPattern | src/parser.rs:6-22 | the recogniser accepts a line exactly when the program's anchored pattern matches it: a run of spaces, `- [`, a box character, `] `, then a rest without a newline |
| Codec.ParseShape | src/parser.rs:7-12 | a line of k spaces, `- [`, box, `] `, text parses iff the box is a space, a vertical bar, `x` or `X` and the text has no newline; level is k/2 rounded down, completed iff box is `x`/`X`, description is the text verbatim |
| Codec.ParsedHasShape | src/parser.rs:7-21 | every accepted line has that shape, with some k and box that give the parsed level and completed flag |
| Codec.TaskLineRoundTrip | src/parser.rs:48 | the line written for a task with a newline-free description parses back to the same task |
| Codec.ParseOneSpace | src/parser.rs:10 | one leading space gives level 0 |
| Codec.ParseThreeSpaces | src/parser.rs:10-12 | three leading spaces give level 1, `X` is completed, and leading spaces of the description are kept |
| Codec.ParseBarBox | src/parser.rs:7-11 | a vertical bar in the box is accepted as not completed; an empty description is accepted |
| Codec.RejectNoTrailingSpace | src/parser.rs:7 | `- [ ]` without the space after `]` is rejected |
| Codec.RejectTabIndent | src/parser.rs:7 | a tab indent is rejected |
| Codec.RejectStarBullet | src/parser.rs:7 | a `*` bullet is rejected |
| Codec.RejectNewline | src/parser.rs:7 | a line whose text contains a newline is rejected |
| Codec.FileToTasksAppend | src/parser.rs:30-35 | reading distributes over concatenation of line lists, so tasks keep their relative order |
| Codec.FileToTasksDropsRejected | src/parser.rs:30-35 | a line that does not parse is dropped and changes nothing else |
| Codec.FileToTasksSound | src/parser.rs:30-35 | every task read comes from a line that parses to it, and there are at most as many tasks as lines |
| Codec.FileToTasksOfTaskLines | src/parser.rs:30-35 | reading the task lines of a list whose descriptions have no newline gives the list back |
| Codec.SplitTasksToStr | src/parser.rs:44-52 | the written text, split on newlines, is one line per task in list order followed by one final empty piece; the empty list gives one empty piece |
| Codec.LinesOfTasksToStr | src/parser.rs:44-52 | without the final empty piece, the lines of the written text are exactly the task lines |
| Codec.TasksRoundTrip | src/parser.rs:30-52 | writing a list of tasks with newline-free descriptions and reading the lines back gives the same list |
| Codec.ReadExample | src/parser.rs:30-35 | the three example lines read as two tasks, and the non-task line is dropped |
| Codec.WriteExample | src/parser.rs:44-52 | the two example tasks are written as `- [ ] buy milk\n  - [x] 2%\n` |
| Browse.VisibleRows | src/ui.rs:22-29 | the drawn rows are exactly the indices in `[offsetY, offsetY + h - 1)` that exist, in increasing order |
| Browse.SelectNext | src/ui.rs:248-263 | plain Down selects `min(sel + 1, len - 1)`, leaves the tasks and the dirty flag alone, and scrolls down one row exactly when the selection was on the bottom row of the window or below it |
| Browse.MoveTaskDown | src/ui.rs:248-257 | Ctrl+Down swaps the selected task with the next one and the selection follows it; at the end nothing moves; the dirty flag is untouched; it scrolls down one row exactly when the selection was on the bottom row of the window or below it |
| Browse.SelectPrev | src/ui.rs:265-280 | plain Up selects `sel - 1` clamped at 0 and leaves the tasks and the dirty flag alone; it scrolls up one row exactly when the selection can move and was on the top row of the window or above it |
| Browse.MoveTaskUp | src/ui.rs:265-274 | Ctrl+Up swaps the selected task with the previous one and the selection follows it; at the top nothing moves; the dirty flag is untouched; it scrolls up one row exactly when the selection can move and was on the top row of the window or above it |
| Browse.ToggleCompleted | src/ui.rs:282-284 | Space flips only the selected task's completed flag and leaves the dirty flag alone |
| Browse.Indent | src/ui.rs:316-319 | Tab adds one to the selected task's level only and sets the dirty flag |
| Browse.Outdent | src/ui.rs:321-326 | BackTab subtracts one from the level, clamped at 0, and sets the dirty flag even when it clamps |
| Browse.DeleteSelected | src/ui.rs:286-292 | `d` removes the selected task and the others keep their order; the selection keeps its index unless the last task was removed; the dirty flag is set |
| Browse.InsertBelow | src/ui.rs:294-310 | `i` inserts an empty, incomplete task at the selected level (level 0 on an empty list) just below the selection (at 0 on an empty list), selects it, and sets the dirty flag; removing it gives the old list |
| Browse.JumpHome | src/ui.rs:328-335 | Home selects index 0 and the window returns to the top |
| Browse.JumpEnd | src/ui.rs:337-343 | End selects the last task; the new offset is the larger of the old offset and `len + 1 - h`, the least scroll that shows the last task |
| Browse.JumpEndAsWritten | src/ui.rs:337-343 | End with the subtraction in the order of the source selects the last task, keeps the tasks and the flag, and never scrolls up when it does not underflow; `JumpEndAsWrittenFails` gives exactly when it underflows |
| Browse.JumpEndAsWrittenFails | src/ui.rs:337-343 | End as written, with checked unsigned arithmetic, fails exactly when `len == h` and `offsetY == 0`; in every other case it agrees with `JumpEnd` |
| Browse.JumpEndAsWrittenExample | src/ui.rs:341 | three tasks on a three-row terminal, End from the top: the as-written arithmetic underflows, while the intended offset is 1 |
| Browse.SelectNextVisible | src/ui.rs:248-263 | a Down that moves the selection, plain or with Ctrl, keeps the selection on screen |
| Browse.DownAtLastTask | src/ui.rs:248-263 | Down at the last task does not move the selection but still scrolls when it is on the bottom row; on a terminal of three rows or more the selection stays visible |
| Browse.DownAtLastTaskHides | src/ui.rs:249-251 | on a two-row terminal, Down at the last task scrolls the selection out of view |
| Browse.SelectPrevVisible | src/ui.rs:265-280 | Up, plain or with Ctrl, keeps a visible selection visible |
| Browse.JumpVisible | src/ui.rs:328-343 | after Home, and after End from a state whose window does not start below the selection, the selection is visible |
| Browse.DownThenUp | src/ui.rs:248-280 | Up undoes a Down that moved; Ctrl+Up undoes Ctrl+Down on the task list and the selection |
| Browse.ToggleTwice | src/ui.rs:282-284 | Space twice is the identity on the whole state |
| Browse.IndentThenOutdent | src/ui.rs:316-326 | BackTab after Tab gives back the task list |
| Browse.InsertThenDelete | src/ui.rs:286-310 | the `d` transition applied to the state the `i` transition produced gives back the task list; the selection comes back one row down unless the original selection was the last task (the key sequence the program can run is `Dispatch.InsertEscDelete`) |
| Browse.InsertMayHideSelection | src/ui.rs:294-310 | `i` on the bottom row leaves the new selection below the window |
| Browse.DeleteMayHideSelection | src/ui.rs:286-292 | `d` of the last task, on the top row, leaves the selection above the window |
| Editor.Begin | src/ui.rs:128-146 | a session's buffer holds the selected description with the cursor at its end, and the session records the dirty flag as it was |
| Editor.InsertChar | src/ui.rs:154-157 | a character goes in at the cursor, the rest of the text shifts by one, and the cursor moves past it |
| Editor.DeleteBackward | src/ui.rs:184-189 | Backspace removes the character before the cursor and steps back; at 0 it does nothing |
| Editor.DeleteForward | src/ui.rs:190-194 | Delete removes the character under the cursor and keeps the cursor; at the end it does nothing |
| Editor.SkipRight | src/ui.rs:158-171 | Ctrl+Right goes to the least position after the cursor that is the end of the text or holds a space |
| Editor.SkipLeft | src/ui.rs:172-183 | Ctrl+Left goes to the greatest position before the cursor that holds a space, or to 0 if there is none |
| Editor.CursorRight | src/ui.rs:158-171 | Right keeps the text and the cursor in range; plain Right moves one place; Ctrl+Right goes to the `SkipRight` target; at the end nothing moves |
| Editor.CursorLeft | src/ui.rs:172-183 | Left keeps the text and the cursor in range; plain Left moves one place; Ctrl+Left goes to the `SkipLeft` target; at 0 nothing moves |
| Editor.RightLoop | src/ui.rs:159-170 | the source's Right loop, with its break structure, computes the same cursor as `CursorRight` |
| Editor.LeftLoop | src/ui.rs:173-182 | the source's Left loop, with its break structure, computes the same cursor as `CursorLeft` |
| Editor.SkipRightUnique | src/ui.rs:158-171 | the Ctrl+Right target is the only position with its defining property |
| Editor.SkipLeftUnique | src/ui.rs:172-183 | the Ctrl+Left target is the only position with its defining property |
| Editor.EditStep | src/ui.rs:151-216 | every key marks the state changed and keeps the cursor in range. Esc returns with the tasks untouched and the flag as it was at the start. Enter writes the buffer into the selected description only and leaves the dirty flag set exactly when it was set at the start or the text differs from the original. Only Esc and Enter end the session. A character is inserted at the cursor, Left and Right move it, Backspace and Delete remove one character, Home moves the cursor to 0 and End to the end of the text, and every other key leaves the session as it was |
| Editor.HomeThenEnd | src/ui.rs:208-213 | Home then End on a fresh session gives back the session's starting buffer, and the state is marked changed |
| Editor.HomeThenType | src/ui.rs:154-210 | a character typed after Home goes in front of the whole description, with the cursor just after it |
| Editor.DeleteBackwardUndoesInsert | src/ui.rs:154-189 | Backspace right after typing a character gives back the buffer |
| Editor.DeleteUndoesInsert | src/ui.rs:154-194 | Left then Delete right after typing a character gives back the buffer |
| Editor.WordRightThenLeft | src/ui.rs:158-183 | from a space, Ctrl+Right then Ctrl+Left comes back to it when the word does not run to the end |
| Editor.EnterAtOnceIsNoOp | src/ui.rs:201-207 | Enter at once on a clean state leaves the state exactly as it was |
| Editor.TypeEraseEnterIsNoOp | src/ui.rs:151-207 | typing a character, erasing it and pressing Enter on a clean state leaves the state clean and unchanged |
| Editor.EscRestores | src/ui.rs:195-200 | Esc returns the tasks untouched with the dirty flag the session began with |
| Dispatch.Processable | src/ui.rs:248-343 | both directions: End is processable exactly when there are tasks and it does not meet the underflow of line 341; `d` exactly when there are at least two tasks; Down, Space, Tab, BackTab and `e` exactly when there is a task; Up, Home, `i`, `s` and `q` never panic and are always processable |
| Dispatch.Move | src/ui.rs:248-280 | Down selects `min(sel + 1, len - 1)` and Up selects `sel - 1` clamped at 0; without Ctrl the tasks are untouched, with Ctrl the selected task travels with the selection; the dirty flag is untouched |
| Dispatch.BrowseKey | src/ui.rs:237-343 | `s` and `q` exit with save true and false; `i` and `e` enter editing; only Tab, BackTab, `d` and `i` set the dirty flag and none clears it; only Up, Down, Home and End scroll; plain Up and Down keep the tasks; End gives the same state as the as-written arithmetic wherever that does not underflow. Up and Down are `Move`; Space flips only the selected task's flag; Tab adds one level and BackTab removes one, clamped at 0; `d` removes the selected task; `i` inserts `NewTask` at the new selection, and removing it gives the old list; Home selects the first task and scrolls to the top; every other key leaves the state as it was |
| Dispatch.Init | src/main.rs:25-28 | the loop starts in browse mode on exactly the loaded tasks, with selection and offset 0 and no unsaved changes |
| Dispatch.Step | src/ui.rs:233-351 | one key keeps the machine well formed; after exit keys have no effect; exit keeps the state and saves only on `s`. In browse mode the state is that of `BrowseKey`, and `i` and `e` open `Editor.Begin` on the new state; in a session the state and the session are those of `Editor.EditStep`, and exactly Esc and Enter return to browsing |
| Dispatch.Run | src/ui.rs:233-354 | a run that does not reach a panicking key ends well formed; once exited, it stays exited |
| Dispatch.RunAppend | src/ui.rs:233-354 | a run over two key sequences in a row is the run over the first followed by the run over the second, so every key is stepped in order |
| Dispatch.RunCons | src/ui.rs:233-354 | the first key of a run is stepped when the machine can take it, and otherwise stops the run |
| Dispatch.RunOne | src/ui.rs:233-354 | a run of one key is one step, or `None` when the key would panic |
| Dispatch.SpaceTwice | src/ui.rs:282-284 | Space twice, on a state that already has unsaved changes, gives the machine back exactly |
| Dispatch.EditTypeEraseEnter | src/ui.rs:128-224 | `e`, a typed character, Backspace and Enter on a clean state return to browsing with the state exactly as it was |
| Dispatch.LoadThenSave | src/main.rs:22-33 | loading the file written for a list whose descriptions have no newline and pressing `s` at once saves the same list |
| Dispatch.StepKeepsDirty | src/ui.rs:195-207 | no key clears unsaved changes; the resets of Esc and Enter only restore the flag the session began with |
| Dispatch.RunKeepsDirty | src/ui.rs:233-351 | over any key sequence, once the settled dirty flag is set it stays set |
| Dispatch.InsertThenEsc | src/ui.rs:294-310 | `i` then Esc keeps the new empty task and leaves the state changed |
| Dispatch.InsertEscDelete | src/ui.rs:286-310 | `i`, Esc, `d` gives back the original task list |
| Dispatch.EditEnterStaysClean | src/ui.rs:312-314 | `e` then Enter on a clean state returns to browsing with nothing changed |
| Dispatch.EndUnderflowStops | src/ui.rs:337-343 | End on three tasks at the top of a three-row terminal stops the run; from the second row it selects the last task without scrolling |
| Dispatch.QuitKeys | src/ui.rs:238-246 | `s` exits with save, `q` exits without, and neither touches the state |

## Findings

| source | as written | input that shows it | evidently intended | confidence | as-written member | corrected member |
|---|---|---|---|---|---|---|
| src/ui.rs:341 | `selected_index - h + 2` in `usize` subtracts `h` first | terminal of height h holding exactly h tasks, window at the top, End pressed (3 tasks, h = 3) | `offsetY = selected_index + 2 - h` (1 in the example) | not executed; a debug build panics on the underflow, a release build wraps to the intended value | Browse.JumpEndAsWrittenFails | Browse.JumpEnd |

## Left out

- Finding the target file, reading and writing it, process arguments and exit, and the async runtime are left out. The model starts from the list of lines that was read and ends with the tasks and the save flag.
- All terminal drawing is left out: colours, cursor moves, raw mode, the help and status lines, the 100 ms poll and the 50 ms sleep. The terminal height is the parameter `h` (at least 2), and it is taken as constant for the whole run of keys; the program reads the size again on every key, so a resize during a run is not modelled.
- Codec.Lines splits on `'\n'` only. The line reader also strips a `'\r'` before the newline, so a description ending in `'\r'` would lose it on reload. This is not modelled.
- The regular-expression engine is not modelled; only this one pattern is, as the recogniser.
- Byte offsets against character offsets in the editor are not modelled. The buffer is a sequence of characters, which matches the program for ASCII text. The panics on multi-byte text are not modelled.
- Panics are not modelled as outcomes. Space, Tab, BackTab, `e`, End and `j`/Down need a non-empty list, `d` needs two tasks, and End must not meet the underflow at src/ui.rs:341. These are preconditions, collected in `Dispatch.Processable`; `Dispatch.Run` answers `None` when a key would panic in a debug build. A release build wraps instead; those wrapped outcomes are not modelled.
- Browse.DeleteSelected: `d` on the only task is excluded. In a debug build, `len() - 1` on the emptied list panics. A release build wraps instead and leaves an empty list with selection 0. That outcome is not modelled.
- `usize` overflow of a level after 2^64 Tab presses, and of `offsetY`, is not modelled. Levels and offsets are unbounded naturals.
- A modifier set other than Ctrl alone counts as no modifier, as the `== CONTROL` comparisons do. Character keys act the same with any modifiers.
- An editing session that ends on a non-key event is not modelled. That happens when the `while let` of the editor loop stops on something that is not a key event. Outside sessions, non-key events and poll timeouts change nothing and are not modelled.
- The entry point builds its state without the dirty flag or the scroll offset (src/main.rs:25-28), so it does not match the record of src/types.rs:7-12. `Dispatch.Init` uses that record, with no unsaved changes and the selection and offset both at 0.

=== FILE: browse.dfy ===
/**
 Browse-mode transitions of the task screen. Each key is a function on the
 state; `h` is the terminal height, of which the last row is the status line,
 so the task rows on screen are the indices in [offsetY, offsetY + h - 1).
 */
module Browse {
  import opened Types

  /** The selected row is on screen. */
  predicate Visible(s: State, h: nat) {
    s.offsetY <= s.selected < s.offsetY + h - 1
  }

  /** The task indices drawn, in drawing order: the enumerate-and-filter loop
      of the task renderer. */
  method VisibleRows(tasks: seq<Task>, offsetY: nat, h: nat) returns (rows: seq<nat>)
    requires h >= 1
    ensures forall i :: i in rows <==> i < |tasks| && offsetY <= i < offsetY + h - 1
    ensures forall k :: 0 <= k < |rows| ==> rows[k] == offsetY + k
  {
    rows := [];
    var i := 0;
    while i < |tasks|
      invariant i <= |tasks|
      invariant forall j :: j in rows <==> j < i && offsetY <= j < offsetY + h - 1
      invariant forall k :: 0 <= k < |rows| ==> rows[k] == offsetY + k
      invariant |rows| == if i <= offsetY then 0 else Min(i, offsetY + h - 1) - offsetY
    {
      if i >= offsetY && i < offsetY + h - 1 {
        rows := rows + [i];
      }
      i := i + 1;
    }
  }

  function Min(a: int, b: int): int {
    if a <= b then a else b
  }

  /** The scroll check of `j`/Down, made before the bound check: if the
      selection is on the bottom row, the window moves down one row. */
  function ScrollForDown(s: State, h: nat): nat
    requires h >= 2
  {
    if s.selected + 1 >= s.offsetY + h - 1 then s.offsetY + 1 else s.offsetY
  }

  /** `j` / Down: select the next task, clamped at the last one. */
  function SelectNext(s: State, h: nat): (r: State)
    requires Valid(s) && |s.tasks| > 0 && h >= 2
    ensures Valid(r)
    ensures r.tasks == s.tasks && r.changed == s.changed
    ensures r.selected == Min(s.selected + 1, |s.tasks| - 1)
    ensures s.offsetY <= r.offsetY <= s.offsetY + 1
    ensures r.offsetY != s.offsetY <==> s.selected + 2 >= s.offsetY + h
  {
    var off := ScrollForDown(s, h);
    if s.selected < |s.tasks| - 1 then s.(selected := s.selected + 1, offsetY := off)
    else s.(offsetY := off)
  }

  /** Ctrl+`j` / Ctrl+Down: move the selected task one place down, the
      selection following it; nothing moves at the end of the list. */
  function MoveTaskDown(s: State, h: nat): (r: State)
    requires Valid(s) && |s.tasks| > 0 && h >= 2
    ensures Valid(r)
    ensures |r.tasks| == |s.tasks| && r.changed == s.changed
    ensures r.tasks[r.selected] == s.tasks[s.selected]
    ensures s.selected == |s.tasks| - 1 ==> r.tasks == s.tasks && r.selected == s.selected
    ensures s.selected < |s.tasks| - 1 ==>
      && r.selected == s.selected + 1
      && r.tasks[s.selected] == s.tasks[s.selected + 1]
      && forall k :: 0 <= k < |s.tasks| && k != s.selected && k != s.selected + 1 ==> r.tasks[k] == s.tasks[k]
    ensures s.offsetY <= r.offsetY <= s.offsetY + 1
    ensures r.offsetY != s.offsetY <==> s.selected + 2 >= s.offsetY + h
  {
    var off := ScrollForDown(s, h);
    if s.selected < |s.tasks| - 1 then
      var t := s.tasks[s.selected];
      s.(tasks := InsertAt(RemoveAt(s.tasks, s.selected), s.selected + 1, t),
         selected := s.selected + 1, offsetY := off)
    else s.(offsetY := off)
  }

  /** The scroll check of `k`/Up: if the selection is on the top row and can
      still move, the window moves up one row. */
  function ScrollForUp(s: State): nat {
    if s.selected > 0 && s.selected <= s.offsetY then s.offsetY - 1 else s.offsetY
  }

  /** `k` / Up: select the previous task, clamped at the first one. */
  function SelectPrev(s: State): (r: State)
    requires Valid(s)
    ensures Valid(r)
    ensures r.tasks == s.tasks && r.changed == s.changed
    ensures r.selected == if s.selected == 0 then 0 else s.selected - 1
    ensures r.offsetY <= s.offsetY <= r.offsetY + 1
    ensures r.offsetY != s.offsetY <==> 0 < s.selected <= s.offsetY
  {
    var off := ScrollForUp(s);
    if s.selected > 0 then s.(selected := s.selected - 1, offsetY := off)
    else s.(offsetY := off)
  }

  /** Ctrl+`k` / Ctrl+Up: move the selected task one place up, the selection
      following it; nothing moves at the top of the list. */
  function MoveTaskUp(s: State): (r: State)
    requires Valid(s)
    ensures Valid(r)
    ensures |r.tasks| == |s.tasks| && r.changed == s.changed
    ensures |s.tasks| > 0 ==> r.tasks[r.selected] == s.tasks[s.selected]
    ensures s.selected == 0 ==> r.tasks == s.tasks && r.selected == 0
    ensures s.selected > 0 ==>
      && r.selected == s.selected - 1
      && r.tasks[s.selected] == s.tasks[s.selected - 1]
      && forall k :: 0 <= k < |s.tasks| && k != s.selected && k != s.selected - 1 ==> r.tasks[k] == s.tasks[k]
    ensures r.offsetY <= s.offsetY <= r.offsetY + 1
    ensures r.offsetY != s.offsetY <==> 0 < s.selected <= s.offsetY
  {
    var off := ScrollForUp(s);
    if s.selected > 0 then
      var t := s.tasks[s.selected];
      s.(tasks := InsertAt(RemoveAt(s.tasks, s.selected), s.selected - 1, t),
         selected := s.selected - 1, offsetY := off)
    else s.(offsetY := off)
  }

  /** Replace the selected task, leaving everything else as it is. */
  function WithSelected(s: State, t: Task): State
    requires Valid(s) && |s.tasks| > 0
  {
    s.(tasks := s.tasks[s.selected := t])
  }

  /** Space: flip `completed` of the selected task. The dirty flag is left alone. */
  function ToggleCompleted(s: State): (r: State)
    requires Valid(s) && |s.tasks| > 0
    ensures Valid(r)
    ensures |r.tasks| == |s.tasks|
    ensures r.tasks[s.selected].completed != s.tasks[s.selected].completed
    ensures r.tasks[s.selected].description == s.tasks[s.selected].description
    ensures r.tasks[s.selected].level == s.tasks[s.selected].level
    ensures forall k :: 0 <= k < |s.tasks| && k != s.selected ==> r.tasks[k] == s.tasks[k]
    ensures r.selected == s.selected && r.offsetY == s.offsetY && r.changed == s.changed
  {
    var t := s.tasks[s.selected];
    WithSelected(s, t.(completed := !t.completed))
  }

  /** Tab: one level deeper; marks the state changed. */
  function Indent(s: State): (r: State)
    requires Valid(s) && |s.tasks| > 0
    ensures Valid(r) && r.changed
    ensures |r.tasks| == |s.tasks|
    ensures r.tasks[s.selected] == s.tasks[s.selected].(level := s.tasks[s.selected].level + 1)
    ensures forall k :: 0 <= k < |s.tasks| && k != s.selected ==> r.tasks[k] == s.tasks[k]
    ensures r.selected == s.selected && r.offsetY == s.offsetY
  {
    var t := s.tasks[s.selected];
    WithSelected(s, t.(level := t.level + 1)).(changed := true)
  }

  /** BackTab: one level shallower, never below 0; marks the state changed
      even when the level was already 0. */
  function Outdent(s: State): (r: State)
    requires Valid(s) && |s.tasks| > 0
    ensures Valid(r) && r.changed
    ensures |r.tasks| == |s.tasks|
    ensures r.tasks[s.selected].level + 1 == s.tasks[s.selected].level
         || r.tasks[s.selected].level == s.tasks[s.selected].level == 0
    ensures r.tasks[s.selected].description == s.tasks[s.selected].description
    ensures r.tasks[s.selected].completed == s.tasks[s.selected].completed
    ensures forall k :: 0 <= k < |s.tasks| && k != s.selected ==> r.tasks[k] == s.tasks[k]
    ensures r.selected == s.selected && r.offsetY == s.offsetY
  {
    var t := s.tasks[s.selected];
    var level := if t.level > 0 then t.level - 1 else t.level;
    WithSelected(s, t.(level := level)).(changed := true)
  }

  /** `d`: remove the selected task. The selection keeps its index, now
      showing the task that followed, unless the removed task was the last
      one, in which case it moves to the new last task. The program computes
      `len - 1` on the shortened list, so it needs at least two tasks. */
  function DeleteSelected(s: State): (r: State)
    requires Valid(s) && |s.tasks| >= 2
    ensures Valid(r) && r.changed
    ensures |r.tasks| == |s.tasks| - 1
    ensures forall k :: 0 <= k < s.selected ==> r.tasks[k] == s.tasks[k]
    ensures forall k :: s.selected <= k < |r.tasks| ==> r.tasks[k] == s.tasks[k + 1]
    ensures r.selected == if s.selected == |s.tasks| - 1 then s.selected - 1 else s.selected
    ensures r.offsetY == s.offsetY
  {
    var ts := RemoveAt(s.tasks, s.selected);
    var sel := if |ts| - 1 < s.selected then s.selected - 1 else s.selected;
    s.(tasks := ts, selected := sel, changed := true)
  }

  /** The task `i` creates: empty, not completed, at the selected task's level
      (0 on an empty list). */
  function NewTask(s: State): Task
    requires Valid(s)
  {
    Task("", if |s.tasks| > 0 then s.tasks[s.selected].level else 0, false)
  }

  /** `i`: insert the new task below the selection (at the top of an empty
      list) and select it; marks the state changed. The window is not
      scrolled. */
  function InsertBelow(s: State): (r: State)
    requires Valid(s)
    ensures Valid(r) && r.changed
    ensures |r.tasks| == |s.tasks| + 1
    ensures r.selected == if |s.tasks| > 0 then s.selected + 1 else 0
    ensures r.tasks[r.selected] == NewTask(s)
    ensures RemoveAt(r.tasks, r.selected) == s.tasks
    ensures r.offsetY == s.offsetY
  {
    var t := NewTask(s);
    if |s.tasks| > 0 then
      RemoveInsert(s.tasks, s.selected + 1, t);
      s.(tasks := InsertAt(s.tasks, s.selected + 1, t), selected := s.selected + 1, changed := true)
    else
      RemoveInsert(s.tasks, 0, t);
      s.(tasks := InsertAt(s.tasks, 0, t), changed := true)
  }

  /** Home: select the first task and scroll back to the top. */
  function JumpHome(s: State): (r: State)
    ensures r.selected == 0 && r.offsetY == 0
    ensures r.tasks == s.tasks && r.changed == s.changed
  {
    var r := s.(selected := 0);
    if r.selected < r.offsetY then r.(offsetY := r.selected) else r
  }

  /** End: select the last task and scroll down just far enough to show it:
      the new offset is the larger of the old one and `len + 1 - h`. */
  function JumpEnd(s: State, h: nat): (r: State)
    requires |s.tasks| > 0 && h >= 2
    ensures Valid(r)
    ensures r.selected == |s.tasks| - 1
    ensures r.offsetY >= s.offsetY && r.offsetY + h >= |s.tasks| + 1
    ensures r.offsetY == s.offsetY || r.offsetY + h == |s.tasks| + 1
    ensures r.tasks == s.tasks && r.changed == s.changed
  {
    var sel := |s.tasks| - 1;
    if sel >= s.offsetY + h - 1 then s.(selected := sel, offsetY := sel + 2 - h)
    else s.(selected := sel)
  }

  /** Unsigned subtraction as a debug build performs it: `None` is the
      overflow panic. */
  function CheckedSub(a: nat, b: nat): (r: Option<nat>)
    ensures r.Some? <==> a >= b
    ensures r.Some? ==> r.value + b == a
  {
    if a >= b then Some(a - b) else None
  }

  /** End as written: `selected - h + 2` subtracts `h` first, which
      underflows when the selection is exactly `h - 1`. */
  function JumpEndAsWritten(s: State, h: nat): (r: Option<State>)
    requires |s.tasks| > 0 && h >= 2
    ensures r.Some? ==> r.value.selected == |s.tasks| - 1 && r.value.tasks == s.tasks
    ensures r.Some? ==> r.value.offsetY >= s.offsetY && r.value.changed == s.changed
  {
    var sel := |s.tasks| - 1;
    if sel >= s.offsetY + h - 1 then
      match CheckedSub(sel, h)
      case Some(d) => Some(s.(selected := sel, offsetY := d + 2))
      case None => None
    else Some(s.(selected := sel))
  }

  // ---------------------------------------------------------------------------
  // Properties

  /** The End computation as written fails exactly when the list is as long
      as the terminal is high and the window is at the top; otherwise it
      agrees with `JumpEnd`. */
  lemma JumpEndAsWrittenFails(s: State, h: nat)
    requires |s.tasks| > 0 && h >= 2
    ensures JumpEndAsWritten(s, h).None? <==> |s.tasks| == h && s.offsetY == 0
    ensures JumpEndAsWritten(s, h).Some? ==> JumpEndAsWritten(s, h).value == JumpEnd(s, h)
  {
  }

  /** A concrete case: three tasks on a three-row terminal. */
  lemma JumpEndAsWrittenExample()
    ensures JumpEndAsWritten(State([Task("a", 0, false), Task("b", 0, false), Task("c", 0, false)], 0, 0, false), 3) == None
    ensures JumpEnd(State([Task("a", 0, false), Task("b", 0, false), Task("c", 0, false)], 0, 0, false), 3).offsetY == 1
  {
    JumpEndAsWrittenFails(State([Task("a", 0, false), Task("b", 0, false), Task("c", 0, false)], 0, 0, false), 3);
  }

  /** Down that moves the selection keeps it on screen. */
  lemma SelectNextVisible(s: State, h: nat)
    requires Valid(s) && |s.tasks| > 0 && h >= 2
    requires Visible(s, h) && s.selected < |s.tasks| - 1
    ensures Visible(SelectNext(s, h), h)
    ensures Visible(MoveTaskDown(s, h), h)
  {
  }

  /** Down at the last task still scrolls when the selection is on the bottom
      row; on a terminal of at least three rows the selection stays on screen. */
  lemma DownAtLastTask(s: State, h: nat)
    requires Valid(s) && |s.tasks| > 0 && h >= 2
    requires Visible(s, h) && s.selected == |s.tasks| - 1
    ensures SelectNext(s, h).selected == s.selected
    ensures s.selected + 2 == s.offsetY + h ==> SelectNext(s, h).offsetY == s.offsetY + 1
    ensures h >= 3 ==> Visible(SelectNext(s, h), h)
  {
  }

  /** With a single task row (h = 2), Down at the last task scrolls it out of
      view. */
  lemma DownAtLastTaskHides()
    ensures !Visible(SelectNext(State([Task("a", 0, false)], 0, 0, false), 2), 2)
  {
  }

  /** Up keeps the selection on screen, whether or not it moves. */
  lemma SelectPrevVisible(s: State, h: nat)
    requires Valid(s) && h >= 2 && Visible(s, h)
    ensures Visible(SelectPrev(s), h)
    ensures Visible(MoveTaskUp(s), h)
  {
  }

  /** Home and End leave the selection on screen. */
  lemma JumpVisible(s: State, h: nat)
    requires Valid(s) && h >= 2
    ensures Visible(JumpHome(s), h)
    ensures |s.tasks| > 0 && s.offsetY <= s.selected ==> Visible(JumpEnd(s, h), h)
  {
  }

  /** Up undoes a Down that moved, and moving a task up undoes moving it down. */
  lemma DownThenUp(s: State, h: nat)
    requires Valid(s) && |s.tasks| > 0 && h >= 2 && s.selected < |s.tasks| - 1
    ensures SelectPrev(SelectNext(s, h)).selected == s.selected
    ensures MoveTaskUp(MoveTaskDown(s, h)).tasks == s.tasks
    ensures MoveTaskUp(MoveTaskDown(s, h)).selected == s.selected
  {
    var r := MoveTaskUp(MoveTaskDown(s, h)).tasks;
    assert |r| == |s.tasks|;
    forall k | 0 <= k < |s.tasks| ensures r[k] == s.tasks[k] {
    }
  }

  /** Space twice is the identity. */
  lemma ToggleTwice(s: State)
    requires Valid(s) && |s.tasks| > 0
    ensures ToggleCompleted(ToggleCompleted(s)) == s
  {
    var r := ToggleCompleted(ToggleCompleted(s));
    assert r.tasks == s.tasks by {
      assert |r.tasks| == |s.tasks|;
      forall k | 0 <= k < |s.tasks| ensures r.tasks[k] == s.tasks[k] {
      }
    }
  }

  /** BackTab undoes Tab on the task list. */
  lemma IndentThenOutdent(s: State)
    requires Valid(s) && |s.tasks| > 0
    ensures Outdent(Indent(s)).tasks == s.tasks
  {
    var r := Outdent(Indent(s)).tasks;
    assert |r| == |s.tasks|;
    forall k | 0 <= k < |s.tasks| ensures r[k] == s.tasks[k] {
    }
  }

  /** The `d` transition applied to the state the `i` transition produced
      gives back the task list; the selection returns to the original task
      unless that was the last one. (In the program the key after `i` goes to
      the editor; `Dispatch.InsertEscDelete` is the key sequence `i`, Esc, `d`.) */
  lemma InsertThenDelete(s: State)
    requires Valid(s) && |s.tasks| > 0
    ensures DeleteSelected(InsertBelow(s)).tasks == s.tasks
    ensures DeleteSelected(InsertBelow(s)).selected ==
      if s.selected == |s.tasks| - 1 then s.selected else s.selected + 1
  {
  }

  /** Inserting below the bottom row leaves the selection off screen: the
      window is not scrolled by `i`. */
  lemma InsertMayHideSelection()
    ensures Visible(State([Task("a", 0, false)], 0, 0, false), 2)
    ensures !Visible(InsertBelow(State([Task("a", 0, false)], 0, 0, false)), 2)
  {
  }

  /** Deleting the last task while it is on the top row leaves the selection
      above the window. */
  lemma DeleteMayHideSelection()
    ensures Visible(State([Task("a", 0, false), Task("b", 0, false)], 1, 1, false), 3)
    ensures !Visible(DeleteSelected(State([Task("a", 0, false), Task("b", 0, false)], 1, 1, false)), 3)
  {
  }
}

=== FILE: codec.dfy ===
/**
 The checklist line format. A task line is
   <spaces>- [<c>] <description>
 where the spaces give the level (two per level, integer division), `c` is one
 of ' ', '|', 'x', 'X' and only 'x'/'X' mean completed, and the description is
 everything after the single space following `]`. Lines of any other shape are
 dropped when a file is read, so only the tasks survive a load/save cycle.
 */
module Codec {
  import opened Types

  /** `n` spaces. */
  function Spaces(n: nat): (r: string)
    ensures |r| == n
    ensures forall i :: 0 <= i < n ==> r[i] == ' '
  {
    if n == 0 then "" else " " + Spaces(n - 1)
  }

  /** Length of the run of spaces that starts the line. */
  function LeadingSpaces(s: string): (n: nat)
    ensures n <= |s|
    ensures forall i :: 0 <= i < n ==> s[i] == ' '
    ensures n < |s| ==> s[n] != ' '
  {
    if |s| > 0 && s[0] == ' ' then 1 + LeadingSpaces(s[1..]) else 0
  }

  /** The characters the pattern admits between the brackets. */
  predicate IsBoxChar(c: char) {
    c == ' ' || c == '|' || c == 'x' || c == 'X'
  }

  /** The box characters that mean "completed" (trimmed, case-insensitive "x"). */
  predicate IsChecked(c: char) {
    c == 'x' || c == 'X'
  }

  /** Any line of the checklist shape, before the pattern's character
      restrictions are applied: `k` spaces, "- [", `box`, "] ", `text`. */
  function Shape(k: nat, box: char, text: string): string {
    Spaces(k) + (Marker(box) + text)
  }

  /** The dash, the bracketed box and the separating space. */
  function Marker(box: char): (r: string)
    ensures |r| == 6
  {
    "- [" + [box] + "] "
  }

  /** The lines the anchored pattern matches. `.` does not match a newline and
      `$` is the end of the text, so the text must not contain '\n'. */
  ghost predicate MatchesPattern(line: string) {
    exists k: nat, box: char, text: string ::
      line == Shape(k, box, text) && IsBoxChar(box) && '\n' !in text
  }

  /** After the indentation: "- [", a box character, "] ". */
  predicate HasMarker(rest: string) {
    |rest| >= 6 && rest[0] == '-' && rest[1] == ' ' && rest[2] == '['
    && IsBoxChar(rest[3]) && rest[4] == ']' && rest[5] == ' '
  }

  /** Recogniser for one line: the hand-written equivalent of the pattern. */
  function ParseLine(line: string): (r: Option<Task>)
    ensures r.Some? ==> '\n' !in r.value.description
    ensures r.Some? ==> 2 * r.value.level + 6 + |r.value.description| <= |line|
    ensures r.Some? ==> line[|line| - |r.value.description|..] == r.value.description
    ensures |line| < 6 ==> r.None?
  {
    var n := LeadingSpaces(line);
    var rest := line[n..];
    if HasMarker(rest) && '\n' !in rest[6..]
    then Some(Task(rest[6..], n / |IndentUnit|, IsChecked(rest[3])))
    else None
  }

  /** The filtering loop of the file reader: keep the tasks of the lines that
      parse, in order. */
  function FileToTasks(lines: seq<string>): (r: seq<Task>)
    ensures |r| <= |lines|
    ensures forall i :: 0 <= i < |r| ==> '\n' !in r[i].description
  {
    if |lines| == 0 then []
    else
      match ParseLine(lines[0])
      case Some(t) => [t] + FileToTasks(lines[1..])
      case None => FileToTasks(lines[1..])
  }

  /** The line written for one task, without its terminating newline. */
  function TaskLine(t: Task): (r: string)
    ensures |r| == 2 * t.level + 6 + |t.description|
    ensures r[..2 * t.level] == Spaces(2 * t.level)
    ensures r[2 * t.level..2 * t.level + 6] == "- [" + [if t.completed then 'x' else ' '] + "] "
    ensures r[|r| - |t.description|..] == t.description
  {
    Shape(|IndentUnit| * t.level, if t.completed then 'x' else ' ', t.description)
  }

  /** The task lines of a list, one per task, in list order. */
  function TaskLines(ts: seq<Task>): (r: seq<string>)
    ensures |r| == |ts|
    ensures forall i :: 0 <= i < |ts| ==> r[i] == TaskLine(ts[i])
  {
    if |ts| == 0 then [] else [TaskLine(ts[0])] + TaskLines(ts[1..])
  }

  /** The whole file written for a task list. */
  function TasksToStr(ts: seq<Task>): (r: string)
    ensures r == "" <==> |ts| == 0
    ensures |ts| > 0 ==> |r| > |TaskLine(ts[0])| && r[|r| - 1] == '\n'
    ensures |ts| > 0 ==> r[..|TaskLine(ts[0])|] == TaskLine(ts[0])
  {
    if |ts| == 0 then "" else TaskLine(ts[0]) + "\n" + TasksToStr(ts[1..])
  }

  /** Splitting text on '\n' (every separator ends one piece; the text after
      the last separator is the final piece, possibly empty). */
  function Split(s: string): (r: seq<string>)
    ensures |r| >= 1
  {
    if |s| == 0 then [""]
    else
      var rest := Split(s[1..]);
      if s[0] == '\n' then [""] + rest else [[s[0]] + rest[0]] + rest[1..]
  }

  /** The lines of a text: the pieces of `Split`, without a final empty piece. */
  function Lines(s: string): seq<string> {
    var pieces := Split(s);
    if pieces[|pieces| - 1] == "" then pieces[..|pieces| - 1] else pieces
  }

  predicate NoNewlines(ts: seq<Task>) {
    forall i :: 0 <= i < |ts| ==> '\n' !in ts[i].description
  }

  // ---------------------------------------------------------------------------
  // The recogniser agrees with the pattern

  lemma LeadingSpacesOfShape(k: nat, box: char, text: string)
    ensures LeadingSpaces(Shape(k, box, text)) == k
    ensures Shape(k, box, text)[k..] == Marker(box) + text
  {
    var line := Shape(k, box, text);
    assert line[k] == '-';
    LeadingSpacesIsRun(line, k);
    assert line[k..] == Marker(box) + text;
  }

  /** `LeadingSpaces` is the length of the maximal run of spaces. */
  lemma LeadingSpacesIsRun(s: string, n: nat)
    requires n < |s| && s[n] != ' '
    requires forall i :: 0 <= i < n ==> s[i] == ' '
    ensures LeadingSpaces(s) == n
  {
  }

  /** Parsing a line of the checklist shape: accepted exactly when the box
      character is in the class and the text has no newline; the level is the
      number of spaces divided by two, rounding down; the description is the
      text verbatim. */
  lemma ParseShape(k: nat, box: char, text: string)
    ensures ParseLine(Shape(k, box, text)) ==
      if IsBoxChar(box) && '\n' !in text then Some(Task(text, k / 2, IsChecked(box))) else None
  {
    LeadingSpacesOfShape(k, box, text);
    var rest := Shape(k, box, text)[k..];
    assert rest[6..] == text;
  }

  /** A line the recogniser accepts has the checklist shape, with the spaces,
      box and text the task records. */
  lemma ParsedHasShape(line: string, t: Task)
    requires ParseLine(line) == Some(t)
    ensures exists k: nat, box: char ::
      line == Shape(k, box, t.description) && IsBoxChar(box)
      && k / 2 == t.level && IsChecked(box) == t.completed
    ensures '\n' !in t.description
  {
    var n := LeadingSpaces(line);
    var rest := line[n..];
    assert HasMarker(rest) && '\n' !in rest[6..];
    var box := rest[3];
    assert t == Task(rest[6..], n / |IndentUnit|, IsChecked(box));
    SpacesPrefix(line, n);
    RestShape(rest);
    assert line == Shape(n, box, t.description);
    assert IsBoxChar(box) && n / 2 == t.level && IsChecked(box) == t.completed;
  }

  lemma SpacesPrefix(line: string, n: nat)
    requires n <= |line|
    requires forall i :: 0 <= i < n ==> line[i] == ' '
    ensures line == Spaces(n) + line[n..]
  {
    assert line[..n] == Spaces(n);
    assert line == line[..n] + line[n..];
  }

  lemma RestShape(rest: string)
    requires HasMarker(rest)
    ensures rest == Marker(rest[3]) + rest[6..]
  {
  }

  /** The recogniser accepts exactly the lines the pattern matches. */
  lemma ParseIffPattern(line: string)
    ensures ParseLine(line).Some? <==> MatchesPattern(line)
  {
    if ParseLine(line).Some? {
      ParsedHasShape(line, ParseLine(line).value);
    }
    if MatchesPattern(line) {
      var k: nat, box: char, text: string :|
        line == Shape(k, box, text) && IsBoxChar(box) && '\n' !in text;
      ParseShape(k, box, text);
    }
  }

  /** One task round-trips through its line. */
  lemma TaskLineRoundTrip(t: Task)
    requires '\n' !in t.description
    ensures ParseLine(TaskLine(t)) == Some(t)
  {
    var box := if t.completed then 'x' else ' ';
    ParseShape(2 * t.level, box, t.description);
  }

  /** One space is level 0. */
  lemma ParseOneSpace()
    ensures ParseLine(" - [ ] a") == Some(Task("a", 0, false))
  {
    assert Spaces(1) == " ";
    ShapeExample(1, ' ', "a", " - [ ] a");
  }

  /** Three spaces are level 1, and the description keeps its own leading
      spaces. */
  lemma ParseThreeSpaces()
    ensures ParseLine("   - [X]   b") == Some(Task("  b", 1, true))
  {
    assert Spaces(3) == "   " by { assert Spaces(2) == "  "; }
    ShapeExample(3, 'X', "  b", "   - [X]   b");
  }

  /** '|' is an unchecked box, and the description may be empty. */
  lemma ParseBarBox()
    ensures ParseLine("- [|] ") == Some(Task("", 0, false))
  {
    ShapeExample(0, '|', "", "- [|] ");
  }

  /** The parse of a line of the checklist shape, for lines written out. */
  lemma ShapeExample(k: nat, box: char, text: string, line: string)
    requires line == Shape(k, box, text)
    ensures ParseLine(line) ==
      if IsBoxChar(box) && '\n' !in text then Some(Task(text, k / 2, IsChecked(box))) else None
  {
    ParseShape(k, box, text);
  }

  /** Without the space after `]` the line is rejected. */
  lemma RejectNoTrailingSpace()
    ensures ParseLine("- [ ]") == None
  {
    assert LeadingSpaces("- [ ]") == 0;
  }

  /** A tab is not indentation. */
  lemma RejectTabIndent()
    ensures ParseLine("\t- [ ] a") == None
  {
    assert LeadingSpaces("\t- [ ] a") == 0;
  }

  /** Only `-` is a bullet. */
  lemma RejectStarBullet()
    ensures ParseLine("* [ ] a") == None
  {
    assert LeadingSpaces("* [ ] a") == 0;
  }

  /** A newline in the text is rejected. */
  lemma RejectNewline()
    ensures ParseLine("- [x] a\nb") == None
  {
    ShapeExample(0, 'x', "a\nb", "- [x] a\nb");
  }

  // ---------------------------------------------------------------------------
  // The file reader's loop

  /** The loop distributes over concatenation: tasks keep their relative order. */
  lemma {:induction false} FileToTasksAppend(a: seq<string>, b: seq<string>)
    ensures FileToTasks(a + b) == FileToTasks(a) + FileToTasks(b)
    decreases |a|
  {
    if |a| == 0 {
      assert a + b == b;
    } else {
      assert (a + b)[0] == a[0];
      assert (a + b)[1..] == a[1..] + b;
      FileToTasksAppend(a[1..], b);
    }
  }

  /** A rejected line is dropped and nothing else changes. */
  lemma FileToTasksDropsRejected(a: seq<string>, line: string, b: seq<string>)
    requires ParseLine(line) == None
    ensures FileToTasks(a + [line] + b) == FileToTasks(a + b)
  {
    FileToTasksAppend(a + [line], b);
    FileToTasksAppend(a, [line]);
    FileToTasksAppend(a, b);
    assert FileToTasks([line]) == [];
  }

  /** Every task read comes from a line that parses to it, and there are no
      more tasks than lines. */
  lemma {:induction false} FileToTasksSound(lines: seq<string>)
    ensures |FileToTasks(lines)| <= |lines|
    ensures forall t :: t in FileToTasks(lines) ==> exists l :: l in lines && ParseLine(l) == Some(t)
    decreases |lines|
  {
    if |lines| > 0 {
      FileToTasksSound(lines[1..]);
      forall t | t in FileToTasks(lines)
        ensures exists l :: l in lines && ParseLine(l) == Some(t)
      {
        if ParseLine(lines[0]) == Some(t) {
          assert lines[0] in lines;
        } else {
          assert t in FileToTasks(lines[1..]);
          var l :| l in lines[1..] && ParseLine(l) == Some(t);
          assert l in lines;
        }
      }
    }
  }

  /** Reading the lines written for a task list gives the list back. */
  lemma {:induction false} FileToTasksOfTaskLines(ts: seq<Task>)
    requires NoNewlines(ts)
    ensures FileToTasks(TaskLines(ts)) == ts
    decreases |ts|
  {
    if |ts| > 0 {
      TaskLineRoundTrip(ts[0]);
      FileToTasksCons(TaskLine(ts[0]), TaskLines(ts[1..]), ts[0]);
      FileToTasksOfTaskLines(ts[1..]);
      assert ts == [ts[0]] + ts[1..];
    }
  }

  /** A line that parses contributes its task in front of the tasks of the
      lines after it. */
  lemma FileToTasksCons(line: string, rest: seq<string>, t: Task)
    requires ParseLine(line) == Some(t)
    ensures FileToTasks([line] + rest) == [t] + FileToTasks(rest)
  {
    assert ([line] + rest)[1..] == rest;
  }

  // ---------------------------------------------------------------------------
  // The writer

  /** Splitting a newline-free piece followed by a newline. */
  lemma {:induction false} SplitLine(a: string, b: string)
    requires '\n' !in a
    ensures Split(a + "\n" + b) == [a] + Split(b)
    decreases |a|
  {
    if |a| == 0 {
      assert a + "\n" + b == "\n" + b;
      assert ("\n" + b)[1..] == b;
    } else {
      var s := a + "\n" + b;
      assert s[0] == a[0];
      assert s[1..] == a[1..] + "\n" + b;
      SplitLine(a[1..], b);
      assert [a[0]] + a[1..] == a;
    }
  }

  /** The written text is one line per task, in list order, each ended by a
      newline; splitting it leaves a final empty piece. */
  lemma {:induction false} SplitTasksToStr(ts: seq<Task>)
    requires NoNewlines(ts)
    ensures Split(TasksToStr(ts)) == TaskLines(ts) + [""]
    decreases |ts|
  {
    if |ts| > 0 {
      NoNewlineInTaskLine(ts[0]);
      SplitLine(TaskLine(ts[0]), TasksToStr(ts[1..]));
      SplitTasksToStr(ts[1..]);
    }
  }

  lemma NoNewlineInTaskLine(t: Task)
    requires '\n' !in t.description
    ensures '\n' !in TaskLine(t)
  {
    var k := 2 * t.level;
    var box := if t.completed then 'x' else ' ';
    var line := TaskLine(t);
    assert line == Spaces(k) + (Marker(box) + t.description);
    forall i | 0 <= i < |line| ensures line[i] != '\n' {
      if i >= k + 6 {
        assert line[i] == t.description[i - k - 6];
      }
    }
  }

  /** The lines of the written text are exactly the task lines. */
  lemma LinesOfTasksToStr(ts: seq<Task>)
    requires NoNewlines(ts)
    ensures Lines(TasksToStr(ts)) == TaskLines(ts)
  {
    SplitTasksToStr(ts);
    var lines := TaskLines(ts);
    assert (lines + [""])[..|lines|] == lines;
  }

  /** Whole-list round trip: writing a task list and reading the result back
      gives the same list. */
  lemma TasksRoundTrip(ts: seq<Task>)
    requires NoNewlines(ts)
    ensures FileToTasks(Lines(TasksToStr(ts))) == ts
  {
    LinesOfTasksToStr(ts);
    FileToTasksOfTaskLines(ts);
  }

  /** The worked example, reading: the third line is not a task. */
  lemma ReadExample()
    ensures FileToTasks(["- [ ] buy milk", "  - [x] 2%", "not a task"])
      == [Task("buy milk", 0, false), Task("2%", 1, true)]
  {
    var ls := ["- [ ] buy milk", "  - [x] 2%", "not a task"];
    ReadExampleLines();
    assert ls == ["- [ ] buy milk"] + ["  - [x] 2%"] + ["not a task"];
    FileToTasksAppend(["- [ ] buy milk"] + ["  - [x] 2%"], ["not a task"]);
    FileToTasksAppend(["- [ ] buy milk"], ["  - [x] 2%"]);
  }

  lemma ReadExampleLines()
    ensures FileToTasks(["- [ ] buy milk"]) == [Task("buy milk", 0, false)]
    ensures FileToTasks(["  - [x] 2%"]) == [Task("2%", 1, true)]
    ensures FileToTasks(["not a task"]) == []
  {
    ParseLineExample1();
    ParseLineExample2();
    assert LeadingSpaces("not a task") == 0;
  }

  lemma ParseLineExample1()
    ensures ParseLine("- [ ] buy milk") == Some(Task("buy milk", 0, false))
  {
    ShapeOfExample1();
    ShapeExample(0, ' ', "buy milk", "- [ ] buy milk");
  }

  lemma ShapeOfExample1()
    ensures "- [ ] buy milk" == Shape(0, ' ', "buy milk")
  {
    assert Spaces(0) == "";
  }

  lemma ParseLineExample2()
    ensures ParseLine("  - [x] 2%") == Some(Task("2%", 1, true))
  {
    assert Spaces(2) == "  ";
    ShapeExample(2, 'x', "2%", "  - [x] 2%");
  }

  /** The worked example, writing. */
  lemma WriteExample()
    ensures TasksToStr([Task("buy milk", 0, false), Task("2%", 1, true)])
      == "- [ ] buy milk\n  - [x] 2%\n"
  {
    var a, b := Task("buy milk", 0, false), Task("2%", 1, true);
    WriteExampleLines();
    TasksToStrCons(b, []);
    assert [a, b] == [a] + [b];
    TasksToStrCons(a, [b]);
  }

  lemma TasksToStrCons(t: Task, ts: seq<Task>)
    ensures TasksToStr([t] + ts) == TaskLine(t) + "\n" + TasksToStr(ts)
  {
    assert ([t] + ts)[1..] == ts;
  }

  lemma WriteExampleLines()
    ensures TaskLine(Task("buy milk", 0, false)) == "- [ ] buy milk"
    ensures TaskLine(Task("2%", 1, true)) == "  - [x] 2%"
  {
    assert Spaces(0) == "";
    assert Spaces(2) == "  ";
  }
}

=== FILE: dispatch.dfy ===
/**
 The event loop as a state machine. In browse mode each key is dispatched to
 one transition of `Browse`; `s` and `q` end the loop (saving or not), `i` and
 `e` open an editing session on the selected task, and the session's keys go
 to `Editor` until Esc or Enter returns to browse mode.
 */
module Dispatch {
  import opened Types
  import Browse
  import Editor
  import Codec

  datatype Mode = Browsing | Editing(session: Editor.Session) | Exited(save: bool)

  datatype Machine = Machine(state: State, mode: Mode)

  /** What a browse-mode key leads to. */
  datatype Outcome = Stay(state: State) | Edit(state: State) | Exit(state: State, save: bool)

  predicate IsDown(k: Key) {
    k.code == Down || k.code == Char('j')
  }

  predicate IsUp(k: Key) {
    k.code == Up || k.code == Char('k')
  }

  /** The keys that set the dirty flag in browse mode. */
  predicate Marks(k: Key) {
    k.code == Tab || k.code == BackTab || k.code == Char('d') || k.code == Char('i')
  }

  /** The keys the program handles in this state without an out-of-range
      index or an unsigned underflow, as a debug build checks them: most keys
      need a task to act on, `d` needs two, and End must not reach the
      underflow of its scroll arithmetic. */
  predicate Processable(s: State, k: Key, h: nat)
    requires h >= 2
    ensures k.code == End ==> (Processable(s, k, h) <==> |s.tasks| > 0 && (|s.tasks| != h || s.offsetY != 0))
    ensures k.code == Char('d') ==> (Processable(s, k, h) <==> |s.tasks| >= 2)
    ensures IsDown(k) || k.code == Char(' ') || k.code == Tab || k.code == BackTab || k.code == Char('e')
      ==> (Processable(s, k, h) <==> |s.tasks| > 0)
    ensures IsUp(k) || k.code == Home || k.code == Char('i') || k.code == Char('s') || k.code == Char('q')
      ==> Processable(s, k, h)
  {
    if IsDown(k) || k.code == Char(' ') || k.code == Tab || k.code == BackTab || k.code == Char('e')
    then |s.tasks| > 0
    else if k.code == End then
      (|s.tasks| > 0 && (Browse.JumpEndAsWrittenFails(s, h); Browse.JumpEndAsWritten(s, h).Some?))
    else if k.code == Char('d') then |s.tasks| >= 2
    else true
  }

  /** The keys browse mode acts on; every other key leaves the state alone. */
  predicate Bound(k: Key) {
    || IsDown(k) || IsUp(k) || k.code == Home || k.code == End || k.code == Tab || k.code == BackTab
    || k.code == Char('s') || k.code == Char('q') || k.code == Char(' ') || k.code == Char('d')
    || k.code == Char('i') || k.code == Char('e')
  }

  /** `j`/Down and `k`/Up: with Ctrl the selected task moves with the
      selection, otherwise only the selection moves. */
  function Move(s: State, k: Key, h: nat): (r: State)
    requires Valid(s) && h >= 2 && (IsDown(k) ==> |s.tasks| > 0) && (IsDown(k) || IsUp(k))
    ensures Valid(r) && r.changed == s.changed && |r.tasks| == |s.tasks|
    ensures !k.ctrl ==> r.tasks == s.tasks
    ensures IsDown(k) ==> r.selected == Browse.Min(s.selected + 1, |s.tasks| - 1)
    ensures !IsDown(k) ==> r.selected == if s.selected == 0 then 0 else s.selected - 1
    ensures k.ctrl && |s.tasks| > 0 ==> r.tasks[r.selected] == s.tasks[s.selected]
  {
    if IsDown(k) then
      if k.ctrl then Browse.MoveTaskDown(s, h) else Browse.SelectNext(s, h)
    else
      if k.ctrl then Browse.MoveTaskUp(s) else Browse.SelectPrev(s)
  }

  /** One browse-mode key. */
  function BrowseKey(s: State, k: Key, h: nat): (o: Outcome)
    requires Valid(s) && h >= 2 && Processable(s, k, h)
    ensures Valid(o.state)
    ensures k.code == End ==> Browse.JumpEndAsWritten(s, h) == Some(o.state)
    ensures o.Exit? <==> k.code == Char('s') || k.code == Char('q')
    ensures o.Exit? ==> o.state == s && (o.save <==> k.code == Char('s'))
    ensures o.Edit? <==> k.code == Char('i') || k.code == Char('e')
    ensures o.Edit? ==> |o.state.tasks| > 0
    ensures o.state.changed == (s.changed || Marks(k))
    ensures !IsUp(k) && !IsDown(k) && k.code != Home && k.code != End ==> o.state.offsetY == s.offsetY
    ensures !k.ctrl && (IsUp(k) || IsDown(k)) ==> o.state.tasks == s.tasks
    ensures k.code == Char('e') ==> o.state == s
    ensures IsDown(k) || IsUp(k) ==> o == Stay(Move(s, k, h))
    ensures k.code == Char(' ') ==>
      && |o.state.tasks| == |s.tasks|
      && o.state.tasks[s.selected] == s.tasks[s.selected].(completed := !s.tasks[s.selected].completed)
      && (forall i :: 0 <= i < |s.tasks| && i != s.selected ==> o.state.tasks[i] == s.tasks[i])
    ensures k.code == Tab ==>
      && |o.state.tasks| == |s.tasks|
      && o.state.tasks[s.selected] == s.tasks[s.selected].(level := s.tasks[s.selected].level + 1)
    ensures k.code == BackTab ==>
      && |o.state.tasks| == |s.tasks|
      && o.state.tasks[s.selected].level == (if s.tasks[s.selected].level > 0 then s.tasks[s.selected].level - 1 else 0)
    ensures k.code == Char('d') ==> o.state.tasks == RemoveAt(s.tasks, s.selected)
    ensures k.code == Char('i') ==>
      && RemoveAt(o.state.tasks, o.state.selected) == s.tasks
      && o.state.tasks[o.state.selected] == Browse.NewTask(s)
    ensures k.code == Home ==> o.state.selected == 0 && o.state.offsetY == 0 && o.state.tasks == s.tasks
    ensures !Bound(k) ==> o == Stay(s)
  {
    if k.code == Char('s') then Exit(s, true)
    else if k.code == Char('q') then Exit(s, false)
    else if IsDown(k) || IsUp(k) then Stay(Move(s, k, h))
    else if k.code == Char(' ') then Stay(Browse.ToggleCompleted(s))
    else if k.code == Char('d') then Stay(Browse.DeleteSelected(s))
    else if k.code == Char('i') then Edit(Browse.InsertBelow(s))
    else if k.code == Char('e') then Edit(s)
    else if k.code == Tab then Stay(Browse.Indent(s))
    else if k.code == BackTab then Stay(Browse.Outdent(s))
    else if k.code == Home then Stay(Browse.JumpHome(s))
    else if k.code == End then
      Browse.JumpEndAsWrittenFails(s, h);
      Stay(Browse.JumpEnd(s, h))
    else Stay(s)
  }

  /** A well-formed machine: the selection is valid, and an editing session
      has a task to edit and a cursor inside its buffer. */
  predicate Inv(m: Machine) {
    && Valid(m.state)
    && (m.mode.Editing? ==> |m.state.tasks| > 0 && Editor.WellFormed(m.mode.session.buf))
  }

  /** The machine starts in browse mode on the loaded tasks, clean, at the top. */
  function Init(tasks: seq<Task>): (m: Machine)
    ensures Inv(m) && m.mode == Browsing
    ensures m.state == State(tasks, 0, 0, false)
  {
    Machine(State(tasks, 0, 0, false), Browsing)
  }

  /** Whether the machine can take this key. */
  predicate Accepts(m: Machine, k: Key, h: nat)
    requires h >= 2
  {
    m.mode.Browsing? ==> Processable(m.state, k, h)
  }

  /** One key event. After the loop has ended, keys have no effect. */
  function Step(m: Machine, k: Key, h: nat): (r: Machine)
    requires Inv(m) && h >= 2 && Accepts(m, k, h)
    ensures Inv(r)
    ensures m.mode.Exited? ==> r == m
    ensures m.mode.Browsing? && r.mode.Exited? ==> r.state == m.state && (r.mode.save <==> k.code == Char('s'))
    ensures m.mode.Editing? ==> !r.mode.Exited?
    ensures m.mode.Browsing? ==> r.state == BrowseKey(m.state, k, h).state
    ensures m.mode.Browsing? && r.mode.Editing? ==>
      (k.code == Char('i') || k.code == Char('e')) && r.mode.session == Editor.Begin(r.state)
    ensures m.mode.Editing? ==> r.state == Editor.EditStep(m.state, m.mode.session, k).state
    ensures m.mode.Editing? ==> (r.mode.Browsing? <==> k.code == Esc || k.code == Enter)
    ensures m.mode.Editing? && r.mode.Editing? ==>
      r.mode.session == Editor.EditStep(m.state, m.mode.session, k).session
  {
    match m.mode
    case Exited(_) => m
    case Browsing =>
      (match BrowseKey(m.state, k, h)
       case Stay(s) => Machine(s, Browsing)
       case Edit(s) => Machine(s, Editing(Editor.Begin(s)))
       case Exit(s, save) => Machine(s, Exited(save)))
    case Editing(e) =>
      (match Editor.EditStep(m.state, e, k)
       case Editing(s, e2) => Machine(s, Editing(e2))
       case Done(s) => Machine(s, Browsing))
  }

  /** A sequence of key events, on a terminal of height `h` throughout.
      `None` means some key reached a state in which a debug build of the
      program would stop on an out-of-range index or an unsigned underflow. */
  function Run(m: Machine, keys: seq<Key>, h: nat): (r: Option<Machine>)
    requires Inv(m) && h >= 2
    ensures r.Some? ==> Inv(r.value)
    ensures m.mode.Exited? ==> r == Some(m)
    decreases |keys|
  {
    if |keys| == 0 then Some(m)
    else if !Accepts(m, keys[0], h) then None
    else Run(Step(m, keys[0], h), keys[1..], h)
  }

  /** The dirty flag as it stands once any open session is settled: inside a
      session, the flag the session began with. */
  predicate SettledDirty(m: Machine) {
    if m.mode.Editing? then m.mode.session.wasChanged else m.state.changed
  }

  // ---------------------------------------------------------------------------
  // Properties

  /** No key clears unsaved changes: the only resets of the flag (Esc, and
      Enter on an unchanged text) return it to what it was when the session
      began. */
  lemma StepKeepsDirty(m: Machine, k: Key, h: nat)
    requires Inv(m) && h >= 2 && Accepts(m, k, h) && SettledDirty(m)
    ensures SettledDirty(Step(m, k, h))
  {
  }

  /** The same over any sequence of keys. */
  lemma {:induction false} RunKeepsDirty(m: Machine, keys: seq<Key>, h: nat)
    requires Inv(m) && h >= 2 && SettledDirty(m)
    requires Run(m, keys, h).Some?
    ensures SettledDirty(Run(m, keys, h).value)
    decreases |keys|
  {
    if |keys| > 0 {
      StepKeepsDirty(m, keys[0], h);
      RunKeepsDirty(Step(m, keys[0], h), keys[1..], h);
    }
  }

  /** A run over `a + b` is the run over `a` followed by the run over `b`:
      every key is stepped, in order. */
  lemma {:induction false} RunAppend(m: Machine, a: seq<Key>, b: seq<Key>, h: nat)
    requires Inv(m) && h >= 2
    ensures Run(m, a + b, h) == match Run(m, a, h) case Some(m2) => Run(m2, b, h) case None => None
    decreases |a|
  {
    if |a| > 0 {
      RunCons(m, a[0], a[1..], h);
      assert a == [a[0]] + a[1..];
      RunCons(m, a[0], a[1..] + b, h);
      assert a + b == [a[0]] + (a[1..] + b);
      if Accepts(m, a[0], h) {
        RunAppend(Step(m, a[0], h), a[1..], b, h);
      }
    } else {
      assert a + b == b;
    }
  }

  /** The first key of a run is stepped, or stops the run. */
  lemma RunCons(m: Machine, k: Key, rest: seq<Key>, h: nat)
    requires Inv(m) && h >= 2
    ensures Run(m, [k] + rest, h) == if Accepts(m, k, h) then Run(Step(m, k, h), rest, h) else None
  {
    assert ([k] + rest)[0] == k;
    assert ([k] + rest)[1..] == rest;
  }

  /** A run of one key is one step, or `None` when the key would panic. */
  lemma RunOne(m: Machine, k: Key, h: nat)
    requires Inv(m) && h >= 2
    ensures Run(m, [k], h) == if Accepts(m, k, h) then Some(Step(m, k, h)) else None
  {
    if Accepts(m, k, h) {
      assert [k][1..] == [];
    }
  }

  /** Space twice on a state that already has unsaved changes gives the state
      back exactly. */
  lemma SpaceTwice(s: State, h: nat, c1: bool, c2: bool)
    requires Valid(s) && |s.tasks| > 0 && h >= 2 && s.changed
    ensures Run(Machine(s, Browsing), [Key(Char(' '), c1), Key(Char(' '), c2)], h) == Some(Machine(s, Browsing))
  {
    var m0 := Machine(s, Browsing);
    var m1 := Step(m0, Key(Char(' '), c1), h);
    Browse.ToggleTwice(s);
    RunOne(m0, Key(Char(' '), c1), h);
    RunOne(m1, Key(Char(' '), c2), h);
    RunAppend(m0, [Key(Char(' '), c1)], [Key(Char(' '), c2)], h);
    assert [Key(Char(' '), c1)] + [Key(Char(' '), c2)] == [Key(Char(' '), c1), Key(Char(' '), c2)];
  }

  /** `e`, a typed character, Backspace and Enter on a clean state return to
      browsing with the state exactly as it was. */
  lemma EditTypeEraseEnter(s: State, c: char, h: nat)
    requires Valid(s) && |s.tasks| > 0 && h >= 2 && !s.changed
    ensures Run(Machine(s, Browsing),
                [Key(Char('e'), false), Key(Char(c), false), Key(Backspace, false), Key(Enter, false)], h)
            == Some(Machine(s, Browsing))
  {
    var k0, k1, k2, k3 := Key(Char('e'), false), Key(Char(c), false), Key(Backspace, false), Key(Enter, false);
    var m0 := Machine(s, Browsing);
    var m1 := Step(m0, k0, h);
    assert m1 == Machine(s, Editing(Editor.Begin(s)));
    var m2 := Step(m1, k1, h);
    var m3 := Step(m2, k2, h);
    Editor.TypeEraseEnterIsNoOp(s, c);
    var m4 := Step(m3, k3, h);
    assert m4 == Machine(s, Browsing);
    RunOne(m0, k0, h);
    RunOne(m1, k1, h);
    RunOne(m2, k2, h);
    RunOne(m3, k3, h);
    RunAppend(m0, [k0], [k1, k2, k3], h);
    RunAppend(m1, [k1], [k2, k3], h);
    RunAppend(m2, [k2], [k3], h);
    assert [k0] + [k1, k2, k3] == [k0, k1, k2, k3];
    assert [k1] + [k2, k3] == [k1, k2, k3];
    assert [k2] + [k3] == [k2, k3];
  }

  /** Loading the file written for a task list and pressing `s` at once saves
      the same list: the start state holds the tasks read. */
  lemma LoadThenSave(ts: seq<Task>, h: nat, c: bool)
    requires Codec.NoNewlines(ts) && h >= 2
    ensures Run(Init(Codec.FileToTasks(Codec.Lines(Codec.TasksToStr(ts)))), [Key(Char('s'), c)], h)
            == Some(Machine(State(ts, 0, 0, false), Exited(true)))
  {
    Codec.TasksRoundTrip(ts);
    RunOne(Init(ts), Key(Char('s'), c), h);
  }

  /** `i` then Esc keeps the new empty task and leaves the state changed. */
  lemma InsertThenEsc(s: State, h: nat, c1: bool, c2: bool)
    requires Valid(s) && h >= 2
    ensures
      var m := Step(Step(Machine(s, Browsing), Key(Char('i'), c1), h), Key(Esc, c2), h);
      m == Machine(Browse.InsertBelow(s), Browsing) && m.state.changed
  {
  }

  /** `i`, Esc, `d` gives back the original task list. */
  lemma InsertEscDelete(s: State, h: nat, c1: bool, c2: bool, c3: bool)
    requires Valid(s) && |s.tasks| > 0 && h >= 2
    ensures
      var m := Step(Step(Machine(s, Browsing), Key(Char('i'), c1), h), Key(Esc, c2), h);
      Accepts(m, Key(Char('d'), c3), h) && Step(m, Key(Char('d'), c3), h).state.tasks == s.tasks
  {
    InsertThenEsc(s, h, c1, c2);
    Browse.InsertThenDelete(s);
  }

  /** `e` then Enter on a clean state returns to browse mode with nothing
      changed. */
  lemma EditEnterStaysClean(s: State, h: nat, c1: bool, c2: bool)
    requires Valid(s) && |s.tasks| > 0 && h >= 2 && !s.changed
    ensures Step(Step(Machine(s, Browsing), Key(Char('e'), c1), h), Key(Enter, c2), h) == Machine(s, Browsing)
  {
    Editor.EnterAtOnceIsNoOp(s, c2);
  }

  /** End on three tasks from the top of a three-row terminal reaches the
      underflow of the scroll arithmetic, so the run stops; End from the
      second row, past the underflow, is taken. */
  lemma EndUnderflowStops(c: bool)
    ensures
      var ts := [Task("a", 0, false), Task("b", 0, false), Task("c", 0, false)];
      Run(Init(ts), [Key(End, c)], 3) == None
    ensures
      var ts := [Task("a", 0, false), Task("b", 0, false), Task("c", 0, false)];
      Run(Machine(State(ts, 1, 1, false), Browsing), [Key(End, c)], 3)
        == Some(Machine(State(ts, 2, 1, false), Browsing))
  {
    var ts := [Task("a", 0, false), Task("b", 0, false), Task("c", 0, false)];
    Browse.JumpEndAsWrittenFails(State(ts, 0, 0, false), 3);
    Browse.JumpEndAsWrittenFails(State(ts, 1, 1, false), 3);
  }

  /** `s` saves and `q` discards, whatever state the tasks are in. */
  lemma QuitKeys(s: State, h: nat, ctrl: bool)
    requires Valid(s) && h >= 2
    ensures Run(Machine(s, Browsing), [Key(Char('s'), ctrl)], h) == Some(Machine(s, Exited(true)))
    ensures Run(Machine(s, Browsing), [Key(Char('q'), ctrl)], h) == Some(Machine(s, Exited(false)))
  {
  }
}

=== FILE: editor.dfy ===
/**
 The in-place line editor used by `i` and `e`. The session edits a copy of
 the selected task's description with a cursor `p`, counted in characters from
 the start of the description (the screen column minus the fixed left margin).
 Every key marks the state changed; Esc and Enter then settle the flag.
 */
module Editor {
  import opened Types

  /** The text being edited and the cursor in it. */
  datatype Buffer = Buffer(text: string, p: nat)

  predicate WellFormed(b: Buffer) {
    b.p <= |b.text|
  }

  /** A session: the buffer and whether the state was already changed when
      the session began. */
  datatype Session = Session(buf: Buffer, wasChanged: bool)

  /** What one key does to a session: it goes on, or it returns to browsing. */
  datatype EditResult = Editing(state: State, session: Session) | Done(state: State)

  /** A session starts on the selected description with the cursor at its end. */
  function Begin(s: State): (e: Session)
    requires Valid(s) && |s.tasks| > 0
    ensures WellFormed(e.buf) && e.buf.p == |e.buf.text|
    ensures e.buf.text == s.tasks[s.selected].description
    ensures e.wasChanged == s.changed
  {
    var d := s.tasks[s.selected].description;
    Session(Buffer(d, |d|), s.changed)
  }

  /** A typed character goes in at the cursor, and the cursor moves past it. */
  function InsertChar(b: Buffer, c: char): (r: Buffer)
    requires WellFormed(b)
    ensures WellFormed(r) && r.p == b.p + 1
    ensures |r.text| == |b.text| + 1 && r.text[b.p] == c
    ensures r.text[..b.p] == b.text[..b.p] && r.text[b.p + 1..] == b.text[b.p..]
  {
    Buffer(b.text[..b.p] + [c] + b.text[b.p..], b.p + 1)
  }

  /** Backspace: remove the character before the cursor, if any. */
  function DeleteBackward(b: Buffer): (r: Buffer)
    requires WellFormed(b)
    ensures WellFormed(r)
    ensures b.p == 0 ==> r == b
    ensures b.p > 0 ==> r.p == b.p - 1 && |r.text| == |b.text| - 1
    ensures b.p > 0 ==> r.text[..b.p - 1] == b.text[..b.p - 1]
    ensures b.p > 0 ==> r.text[b.p - 1..] == b.text[b.p..]
  {
    if b.p > 0 then Buffer(b.text[..b.p - 1] + b.text[b.p..], b.p - 1) else b
  }

  /** Delete: remove the character under the cursor, if any; the cursor stays. */
  function DeleteForward(b: Buffer): (r: Buffer)
    requires WellFormed(b)
    ensures WellFormed(r) && r.p == b.p
    ensures b.p == |b.text| ==> r == b
    ensures b.p < |b.text| ==>
      && |r.text| == |b.text| - 1
      && r.text[..b.p] == b.text[..b.p] && r.text[b.p..] == b.text[b.p + 1..]
  {
    if b.p < |b.text| then Buffer(b.text[..b.p] + b.text[b.p + 1..], b.p) else b
  }

  /** Ctrl+Right from `p`: the first position after `p` that is the end of
      the text or holds a space. */
  function SkipRight(text: string, p: nat): (q: nat)
    requires p < |text|
    ensures p < q <= |text|
    ensures q == |text| || text[q] == ' '
    ensures forall k :: p < k < q ==> text[k] != ' '
    decreases |text| - p
  {
    if p + 1 == |text| || text[p + 1] == ' ' then p + 1 else SkipRight(text, p + 1)
  }

  /** Ctrl+Left from `p`: the last position before `p` that holds a space,
      or 0 when there is none. */
  function SkipLeft(text: string, p: nat): (q: nat)
    requires 0 < p <= |text|
    ensures q < p
    ensures q > 0 ==> text[q] == ' '
    ensures forall k :: q < k < p ==> text[k] != ' '
  {
    if p - 1 == 0 || text[p - 1] == ' ' then p - 1 else SkipLeft(text, p - 1)
  }

  /** Right, plain or with Ctrl; at the end of the text nothing moves. */
  function CursorRight(b: Buffer, ctrl: bool): (r: Buffer)
    requires WellFormed(b)
    ensures WellFormed(r) && r.text == b.text
    ensures b.p == |b.text| ==> r.p == b.p
    ensures !ctrl && b.p < |b.text| ==> r.p == b.p + 1
    ensures ctrl && b.p < |b.text| ==> r.p == SkipRight(b.text, b.p)
  {
    if b.p == |b.text| then b
    else if ctrl then b.(p := SkipRight(b.text, b.p))
    else b.(p := b.p + 1)
  }

  /** Left, plain or with Ctrl; at the start of the text nothing moves. */
  function CursorLeft(b: Buffer, ctrl: bool): (r: Buffer)
    requires WellFormed(b)
    ensures WellFormed(r) && r.text == b.text
    ensures b.p == 0 ==> r.p == 0
    ensures !ctrl && b.p > 0 ==> r.p == b.p - 1
    ensures ctrl && b.p > 0 ==> r.p == SkipLeft(b.text, b.p)
  {
    if b.p == 0 then b
    else if ctrl then b.(p := SkipLeft(b.text, b.p))
    else b.(p := b.p - 1)
  }

  /** The Right-key loop as the program runs it: step once, and with Ctrl keep
      stepping until a space or the end of the text. */
  method RightLoop(text: string, p0: nat, ctrl: bool) returns (p: nat)
    requires p0 <= |text|
    ensures p == CursorRight(Buffer(text, p0), ctrl).p
  {
    p := p0;
    while p < |text|
      invariant p0 <= p <= |text|
      invariant !ctrl ==> p == p0
      invariant ctrl ==> forall k :: p0 < k <= p ==> k < |text| && text[k] != ' '
    {
      p := p + 1;
      if ctrl {
        if p == |text| || text[p] == ' ' {
          break;
        }
      } else {
        break;
      }
    }
    if ctrl && p0 < |text| {
      SkipRightUnique(text, p0, p);
    }
  }

  /** The Left-key loop as the program runs it: step back once, and with Ctrl
      keep stepping back until a space or the start of the text. */
  method LeftLoop(text: string, p0: nat, ctrl: bool) returns (p: nat)
    requires p0 <= |text|
    ensures p == CursorLeft(Buffer(text, p0), ctrl).p
  {
    p := p0;
    while p > 0
      invariant p <= p0
      invariant !ctrl ==> p == p0
      invariant ctrl ==> forall k :: p <= k < p0 ==> text[k] != ' '
    {
      p := p - 1;
      if ctrl {
        if text[p] == ' ' {
          break;
        }
      } else {
        break;
      }
    }
    if ctrl && p0 > 0 {
      SkipLeftUnique(text, p0, p);
    }
  }

  /** The Ctrl+Right target is the only position with its defining property. */
  lemma SkipRightUnique(text: string, p: nat, q: nat)
    requires p < q <= |text|
    requires q == |text| || text[q] == ' '
    requires forall k :: p < k < q ==> text[k] != ' '
    ensures q == SkipRight(text, p)
  {
  }

  /** The Ctrl+Left target is the only position with its defining property. */
  lemma SkipLeftUnique(text: string, p: nat, q: nat)
    requires q < p <= |text|
    requires q > 0 ==> text[q] == ' '
    requires forall k :: q < k < p ==> text[k] != ' '
    ensures q == SkipLeft(text, p)
  {
  }

  /** Write the buffer into the selected task's description. */
  function Commit(s: State, text: string): State
    requires Valid(s) && |s.tasks| > 0
  {
    s.(tasks := s.tasks[s.selected := s.tasks[s.selected].(description := text)])
  }

  /** One key of the session. Every key first marks the state changed. Esc
      returns with the flag as it was before the session; Enter stores the
      buffer and clears the flag again when the session began clean and the
      description is unchanged. */
  function EditStep(s: State, e: Session, k: Key): (r: EditResult)
    requires Valid(s) && |s.tasks| > 0 && WellFormed(e.buf)
    ensures Valid(r.state) && r.state.selected == s.selected && r.state.offsetY == s.offsetY
    ensures r.Done? <==> k.code == Esc || k.code == Enter
    ensures r.Editing? ==>
      && r.state == s.(changed := true)
      && WellFormed(r.session.buf) && r.session.wasChanged == e.wasChanged
    ensures k.code == Esc ==> r.state == s.(changed := e.wasChanged)
    ensures k.code == Enter ==>
      && |r.state.tasks| == |s.tasks|
      && r.state.tasks[s.selected].description == e.buf.text
      && r.state.tasks[s.selected].level == s.tasks[s.selected].level
      && r.state.tasks[s.selected].completed == s.tasks[s.selected].completed
      && (forall i :: 0 <= i < |s.tasks| && i != s.selected ==> r.state.tasks[i] == s.tasks[i])
      && r.state.changed == (e.wasChanged || e.buf.text != s.tasks[s.selected].description)
    ensures k.code.Char? ==> r.Editing? && r.session.buf == InsertChar(e.buf, k.code.c)
    ensures k.code == Right ==> r.Editing? && r.session.buf == CursorRight(e.buf, k.ctrl)
    ensures k.code == Left ==> r.Editing? && r.session.buf == CursorLeft(e.buf, k.ctrl)
    ensures k.code == Backspace ==> r.Editing? && r.session.buf == DeleteBackward(e.buf)
    ensures k.code == Delete ==> r.Editing? && r.session.buf == DeleteForward(e.buf)
    ensures k.code == Home ==> r.Editing? && r.session.buf == Buffer(e.buf.text, 0)
    ensures k.code == End ==> r.Editing? && r.session.buf == Buffer(e.buf.text, |e.buf.text|)
    ensures k.code in {Up, Down, Tab, BackTab, OtherKey} ==> r.Editing? && r.session == e
  {
    var s1 := s.(changed := true);
    match k.code
    case Char(c) => Editing(s1, e.(buf := InsertChar(e.buf, c)))
    case Right => Editing(s1, e.(buf := CursorRight(e.buf, k.ctrl)))
    case Left => Editing(s1, e.(buf := CursorLeft(e.buf, k.ctrl)))
    case Backspace => Editing(s1, e.(buf := DeleteBackward(e.buf)))
    case Delete => Editing(s1, e.(buf := DeleteForward(e.buf)))
    case Esc =>
      Done(if !e.wasChanged && s1.changed then s1.(changed := false) else s1)
    case Enter =>
      var s2 := if s.tasks[s.selected].description == e.buf.text && !e.wasChanged
                then s1.(changed := false) else s1;
      Done(Commit(s2, e.buf.text))
    case Home => Editing(s1, e.(buf := e.buf.(p := 0)))
    case End => Editing(s1, e.(buf := e.buf.(p := |e.buf.text|)))
    case _ => Editing(s1, e)
  }

  // ---------------------------------------------------------------------------
  // Properties

  /** Backspace undoes a typed character. */
  lemma DeleteBackwardUndoesInsert(b: Buffer, c: char)
    requires WellFormed(b)
    ensures DeleteBackward(InsertChar(b, c)) == b
  {
    var r := DeleteBackward(InsertChar(b, c));
    assert r.text == b.text[..b.p] + b.text[b.p..];
    assert b.text[..b.p] + b.text[b.p..] == b.text;
  }

  /** Left then Delete also undoes a typed character. */
  lemma DeleteUndoesInsert(b: Buffer, c: char)
    requires WellFormed(b)
    ensures DeleteForward(CursorLeft(InsertChar(b, c), false)) == b
  {
    var r := DeleteForward(CursorLeft(InsertChar(b, c), false));
    assert r.text == b.text[..b.p] + b.text[b.p..];
    assert b.text[..b.p] + b.text[b.p..] == b.text;
  }

  /** Ctrl+Right then Ctrl+Left from a space comes back to it when the
      word after it ends before the end of the text. */
  lemma WordRightThenLeft(text: string, p: nat)
    requires p < |text| && text[p] == ' '
    requires SkipRight(text, p) < |text|
    ensures SkipLeft(text, SkipRight(text, p)) == p
  {
    SkipLeftUnique(text, SkipRight(text, p), p);
  }

  /** Enter straight after `e` on a clean state changes nothing at all. */
  lemma EnterAtOnceIsNoOp(s: State, ctrl: bool)
    requires Valid(s) && |s.tasks| > 0 && !s.changed
    ensures EditStep(s, Begin(s), Key(Enter, ctrl)) == Done(s)
  {
    var r := EditStep(s, Begin(s), Key(Enter, ctrl)).state;
    assert r.tasks == s.tasks;
  }

  /** Typing a character, erasing it and pressing Enter from a clean state
      leaves the state clean: a no-op edit leaves no trace. */
  lemma TypeEraseEnterIsNoOp(s: State, c: char)
    requires Valid(s) && |s.tasks| > 0 && !s.changed
    ensures
      var e0 := Begin(s);
      var r1 := EditStep(s, e0, Key(Char(c), false));
      var r2 := EditStep(r1.state, r1.session, Key(Backspace, false));
      var r3 := EditStep(r2.state, r2.session, Key(Enter, false));
      r3 == Done(s)
  {
    var e0 := Begin(s);
    DeleteBackwardUndoesInsert(e0.buf, c);
    var r1 := EditStep(s, e0, Key(Char(c), false));
    var r2 := EditStep(r1.state, r1.session, Key(Backspace, false));
    assert r2.session == e0;
    var r3 := EditStep(r2.state, r2.session, Key(Enter, false));
    assert r3.state.tasks == s.tasks;
  }

  /** Home then End puts the cursor back where a session starts, the text
      untouched; the state is marked changed all the same. */
  lemma HomeThenEnd(s: State, c1: bool, c2: bool)
    requires Valid(s) && |s.tasks| > 0
    ensures
      var r1 := EditStep(s, Begin(s), Key(Home, c1));
      var r2 := EditStep(r1.state, r1.session, Key(End, c2));
      r2 == Editing(s.(changed := true), Begin(s))
  {
  }

  /** A character typed after Home goes in front of the whole description. */
  lemma HomeThenType(s: State, c: char, c1: bool, c2: bool)
    requires Valid(s) && |s.tasks| > 0
    ensures
      var r1 := EditStep(s, Begin(s), Key(Home, c1));
      var r2 := EditStep(r1.state, r1.session, Key(Char(c), c2));
      r2.Editing? && r2.session.buf == Buffer([c] + s.tasks[s.selected].description, 1)
  {
    var r1 := EditStep(s, Begin(s), Key(Home, c1));
    assert r1.session.buf.text[..0] == [];
  }

  /** Esc after any keys of a session restores the flag the session began with
      and leaves the tasks as they were. */
  lemma EscRestores(s: State, e: Session, ctrl: bool)
    requires Valid(s) && |s.tasks| > 0 && WellFormed(e.buf)
    ensures EditStep(s, e, Key(Esc, ctrl)) == Done(s.(changed := e.wasChanged))
  {
  }
}

=== FILE: types.dfy ===
/**
 The records the checklist editor works on: a task (one checkbox line), the
 application state of the browse screen, an optional value, the key events the
 event loop receives, and the two list surgeries (remove at, insert at) that
 the vector operations of the program perform.
 */
module Types {

  /** One checklist item. `level` is the nesting depth; it has no upper bound. */
  datatype Task = Task(description: string, level: nat, completed: bool)

  /** The browse-screen state: the ordered task list, the selected row, the
      first visible row (`offsetY`) and the dirty flag (`changed`). */
  datatype State = State(tasks: seq<Task>, selected: nat, offsetY: nat, changed: bool)

  datatype Option<+T> = None | Some(value: T)

  /** Key codes the program distinguishes; every other code is `OtherKey`. */
  datatype KeyCode =
    | Char(c: char)
    | Up | Down | Left | Right
    | Home | End
    | Tab | BackTab
    | Backspace | Delete
    | Esc | Enter
    | OtherKey

  /** A key event. `ctrl` holds exactly when the modifier set is CONTROL alone. */
  datatype Key = Key(code: KeyCode, ctrl: bool)

  /** The indentation unit: one level is two spaces. */
  const IndentUnit: string := "  "

  /** The selection is a valid index, or 0 (and inert) when the list is empty. */
  predicate Valid(s: State) {
    if |s.tasks| == 0 then s.selected == 0 else s.selected < |s.tasks|
  }

  /** `Vec::remove(i)`. */
  function RemoveAt<T>(xs: seq<T>, i: nat): (r: seq<T>)
    requires i < |xs|
    ensures |r| == |xs| - 1
    ensures forall k :: 0 <= k < i ==> r[k] == xs[k]
    ensures forall k :: i <= k < |r| ==> r[k] == xs[k + 1]
  {
    xs[..i] + xs[i + 1..]
  }

  /** `Vec::insert(i, x)`. */
  function InsertAt<T>(xs: seq<T>, i: nat, x: T): (r: seq<T>)
    requires i <= |xs|
    ensures |r| == |xs| + 1
    ensures r[i] == x
    ensures forall k :: 0 <= k < i ==> r[k] == xs[k]
    ensures forall k :: i < k < |r| ==> r[k] == xs[k - 1]
  {
    xs[..i] + [x] + xs[i..]
  }

  /** Removing what was just inserted gives the list back. */
  lemma RemoveInsert<T>(xs: seq<T>, i: nat, x: T)
    requires i <= |xs|
    ensures RemoveAt(InsertAt(xs, i, x), i) == xs
  {
    var r := RemoveAt(InsertAt(xs, i, x), i);
    assert |r| == |xs|;
    forall k | 0 <= k < |xs| ensures r[k] == xs[k] {
    }
  }
}
